=== FILE: README.md ===
# BLETransfer chunked transfer, modelled in Dafny

BLETransfer sends an image from one iOS device to another over Bluetooth Low
Energy. The same `BLEManager` class plays either role:

- **Peripheral (sender).** It holds the payload `dataToSend` and a cursor
  `sendIndex`. `sendNextChunk` slices the payload into 20-byte notifications.
  It offers each one to `updateValue`. It advances the cursor and recurses
  while the stack accepts. It stops when the stack reports its transmit queue
  is full. It resumes when `peripheralManagerIsReady` fires.
- **Central (receiver).** It appends every notified value to `receivedData`.
  Once the buffer is longer than 5000 bytes, it hands the whole buffer to
  `UIImage(data:)` and empties it.

This project models those two state machines as pure functions over immutable
states. It proves what they guarantee, including the limits of the 5000-byte
size heuristic.

Files and modules:

- `chunks.dfy`, module `Chunks`: the byte type, an optional type, and
  `Flatten` (the concatenation of a list of chunks), with its algebra.
- `sender.dfy`, module `Sender`:
  - `SenderState`, which holds `dataToSend` and `sendIndex`.
  - `NextChunk`, which computes the slice to offer next.
  - `SendNextChunk`, the recursive drain.
  - `OnStateUpdate`, which loads a payload.
  - `Handle` and `Run`, which dispatch the delegate callbacks.
  - The drain properties.
- `receiver.dfy`, module `Receiver`:
  - `ReceiverState`, which holds `receivedData` and the list of hand-offs.
  - `Append` and `OnValueUpdate`, one notification each.
  - `Receive`, a run of notifications, and `Notify`, a run of callbacks.
  - The threshold properties.
- `transfer.dfy`, module `Transfer`: the two roles end to end. It covers the
  round trip, the 45-byte scenario, and the cut of payloads larger than the
  threshold.

Modelling choices:

- **Transport.** `updateValue(_:for:onSubscribedCentrals:)` becomes an oracle:
  a `seq<bool>` of its answers, one consumed per offered chunk. The drain
  returns the answers it did not consume. If the list runs out, the drain
  stops: the oracle describes no further attempt in that callback.
- **Chunk size and threshold.** Both are parameters (`size`, `threshold`).
  `BLEManager`'s values are the constants `Sender.MaxChunk` (20) and
  `Receiver.Threshold` (5000).
- **Hand-off.** `receivedImage = UIImage(data: receivedData)` becomes
  appending the buffer to the `delivered` list of `ReceiverState`.
- **Guards.** `sendNextChunk` first checks that `peripheralManager`,
  `characteristic` and `dataToSend` are all present. In the code,
  `characteristic` is created in the same callback that loads the payload,
  just before it. So the three checks become one: "a payload is present".
- **Callbacks.** Each delegate callback is one atomic step, because the
  managers are created with `queue: nil` and run on the main queue.

Two consequences of how `BLEManager` is written:

- **No drain on load.** `peripheralManagerDidUpdateState` only stores the
  payload and resets the cursor (lines 82-85). Draining starts at the
  subscription callback (lines 89-92) or the ready callback (lines 94-96).
  `Sender.LoadThenSubscribe` states this sequencing.
- **Threshold for the round trip.** The completion test (line 138) is a
  strict `>`. Threshold n - 1 is the one threshold that hands an n-byte
  payload to the consumer whole whatever the chunk size
  (`Transfer.RoundTrip`); lower thresholds work only when the last chunk is
  long enough. With threshold n nothing is ever handed on
  (`Transfer.ThresholdEqualToLengthDeliversNothing`).

## Model

| member | source | states |
|---|---|---|
| Sender.NextChunk | BLETransfer/BLEManager.swift:57-65 | No chunk exactly when there is no payload or the cursor is at its end. Otherwise the chunk is the contiguous slice starting at `sendIndex`, 1 to `size` bytes long, and shorter than `size` only when it reaches the end of the payload. |
| Sender.SendNextChunk | BLETransfer/BLEManager.swift:56-74 | The recursive drain terminates (measure: bytes remaining). It never changes the payload. The cursor only moves forward and stays within the payload. When idle or finished it is a no-op that sends nothing and consumes no answer. |
| Sender.DrainCovers | BLETransfer/BLEManager.swift:65-70 | The chunks one drain gets accepted, concatenated in order, are exactly the payload bytes between the old and new cursor. No byte is skipped or repeated. |
| Sender.DrainChunkShape | BLETransfer/BLEManager.swift:61-70 | Every chunk a drain gets accepted is 1 to `size` bytes long. Only the last one may be shorter, and only if it finished the payload. |
| Sender.DrainConsumesAnswers | BLETransfer/BLEManager.swift:66-73 | One `true` answer is consumed per accepted chunk. The drain then stops for one of three reasons. Finished: no further answer consumed. Busy: exactly that one `false` consumed, and nothing more attempted in that call. Oracle exhausted. |
| Sender.ChunkCountIsCeiling | BLETransfer/BLEManager.swift:65 | The number of `size`-byte slices needed for `n` bytes is ceil(n / size): the least k with k * size >= n. |
| Sender.DrainAllAccepted | BLETransfer/BLEManager.swift:56-74 | With an always-accepting transport, one drain ends at the end of the payload. It takes exactly ceil(remaining / size) chunks, and consumes exactly that many answers. |
| Sender.OnStateUpdate | BLETransfer/BLEManager.swift:79-86 | With the radio on and an image loaded, the image becomes the payload and the cursor restarts at 0. Any earlier payload is replaced, not queued. Otherwise nothing changes. The cursor invariant is kept. |
| Sender.Handle | BLETransfer/BLEManager.swift:57-96 | A load sends nothing and consumes no answer. Subscription and readiness keep the payload and never move the cursor back. They consume one `true` answer per accepted chunk, and a busy answer ends the callback. When idle or finished they ask the transport nothing and change nothing. Without a load, the chunks sent are exactly the bytes the cursor passed. |
| Sender.ResumeSendsRemainder | BLETransfer/BLEManager.swift:89-96 | A subscription or a ready callback resumes the drain at the cursor: with an accepting transport it sends the rest of the payload, in order, in ceil(remaining / size) chunks, and leaves the cursor at the end. |
| Sender.RunChunksAtMost | BLETransfer/BLEManager.swift:64 | Over any callbacks, reloads included, and any transport answers, no accepted chunk is longer than `size` bytes. |
| Sender.Run | BLETransfer/BLEManager.swift:78-97 | Any sequence of peripheral callbacks keeps the cursor within the payload (0 when nothing is loaded). |
| Sender.LoadThenSubscribe | BLETransfer/BLEManager.swift:79-92 | Loading a payload and then seeing a subscription is the same as one drain of the new payload from offset 0, whatever was in flight before. |
| Sender.LoadThenDrainSendsPayload | BLETransfer/BLEManager.swift:79-92 | After a load and a subscription, an always-accepting transport receives exactly ceil(count / size) chunks. They concatenate to the whole payload, and the cursor ends at `count`. |
| Sender.BusyTransportSendsNothing | BLETransfer/BLEManager.swift:66-96 | While every answer is busy, the subscription and ready callbacks accept nothing and leave the state unchanged. Each makes exactly one attempt while a chunk is left. None is made when idle or finished, so resuming then has no effect. |
| Sender.RunIsContiguous | BLETransfer/BLEManager.swift:65-70 | Over any callbacks that load nothing, and any transport answers, the accepted chunks concatenate to exactly the payload bytes between the start and end cursor. No byte is skipped or sent twice. |
| Sender.ReloadSendsOnlyNewPayload | BLETransfer/BLEManager.swift:82-85 | After a new payload is loaded mid-transfer, everything the transport accepts is a prefix of the new payload. |
| Receiver.Append | BLETransfer/BLEManager.swift:135-140 | The chunk is appended in arrival order: the hand-offs followed by the buffer gain exactly the chunk's bytes. A hand-off happens if and only if the grown buffer is longer than the threshold. It carries the whole grown buffer and empties it. The buffer never exceeds the threshold, and earlier hand-offs are unchanged. |
| Receiver.OnValueUpdate | BLETransfer/BLEManager.swift:133-143 | A notification without a value changes nothing. One with a value adds exactly its bytes to the received stream. It hands on the whole grown buffer and empties it if and only if the grown buffer is longer than the threshold; otherwise the buffer just grows. Earlier hand-offs are kept. |
| Receiver.NotifyIsReceive | BLETransfer/BLEManager.swift:133-143 | A run of notification callbacks (`Receiver.Notify`, the receiver's counterpart of `Sender.Run`) ends in the same state as receiving only the values that were present: notifications without a value are invisible. |
| Receiver.Receive | BLETransfer/BLEManager.swift:133-143 | After any run of notifications, the hand-offs followed by the buffer equal the earlier stream followed by all chunks received. Earlier hand-offs are kept, and the buffer is within the threshold. |
| Receiver.ReceiveBelowThreshold | BLETransfer/BLEManager.swift:137-141 | While the accumulated bytes stay within the threshold, nothing is handed on and the buffer is exactly the received bytes. |
| Receiver.ThresholdTriggersOneDelivery | BLETransfer/BLEManager.swift:138-140 | Chunks totalling threshold + 1 bytes, fed to an empty buffer, cause exactly one hand-off. It carries all of those bytes, and the buffer is left empty. |
| Receiver.DeliveredSizes | BLETransfer/BLEManager.swift:137-140 | Every hand-off is longer than the threshold and at most one chunk longer. |
| Transfer.RoundTrip | BLETransfer/BLEManager.swift:56-141 | Load, subscribe, and a fully accepting transport carry a non-empty payload to a receiver whose threshold is one below its length. The receiver then holds exactly `[payload]` as its only hand-off, with an empty buffer. |
| Transfer.ThresholdEqualToLengthDeliversNothing | BLETransfer/BLEManager.swift:138 | With the threshold equal to the payload length, the strict comparison never fires. The whole payload waits in the buffer and nothing is handed on. |
| Transfer.FortyFiveBytesSent | BLETransfer/BLEManager.swift:64-70 | A 45-byte payload on an accepting transport goes out as three chunks of 20, 20 and 5 bytes. The first two carry the first 40 bytes, and all three the whole payload. |
| Transfer.FortyFiveBytes | BLETransfer/BLEManager.swift:56-141 | A 45-byte payload in 20-byte chunks is sent as 20, 20 and 5 bytes. With threshold 44 the receiver holds the first 40 bytes after two notifications. It hands on all 45, in order, after the third. |
| Transfer.LargePayloadIsCut | BLETransfer/BLEManager.swift:137-140 | With `BLEManager`'s constants (20 and 5000), a payload longer than 5020 bytes never reaches the consumer whole, whatever callbacks follow the load (ready callbacks after backpressure, reloads) and whatever the transport answers. |

## Left out

- CoreBluetooth setup is left out: creating the managers, advertising,
  scanning, connecting, and discovering services and characteristics
  (`BLEManager.swift` lines 30-49 and 101-131). It is platform plumbing over an
  API outside this model. The model starts from a connected link; the
  subscription callback is the event `Subscribed`.
- Loading the image is left out: `loadImage`, `pngData` and
  `UIImage(data:)` are image codecs. The payload is an arbitrary byte string,
  and a hand-off is an entry appended to `delivered`.
- The SwiftUI view (`ContentView.swift`) and the `@Published` property
  propagation are user interface.
- Callback dispatch and queues are left out. Each callback is one atomic
  step, and concurrency is not modelled.
- Link loss and hard failure are left out: the code has no abort path, and
  `updateValue` only returns a boolean.
- The peripheral state check is reduced to the flag `poweredOn`. States other
  than `.poweredOn` are not distinguished.
- Sender.SendNextChunk: when the answer list runs out, the drain stops. This
  stands for "no further attempt described", not a behaviour of the stack. In
  `BLEManager` every offered chunk gets an answer.

=== FILE: chunks.dfy ===
/** Vocabulary shared by the two halves of the transfer: bytes, optional values,
    and the concatenation of a list of chunks back into one byte string. */
module Chunks {

  /** One octet of a payload (Swift's `Data` element). */
  type byte = bv8

  /** Swift's optional: `nil` or a present value. */
  datatype Option<+T> = None | Some(value: T) {
    /** The present value, or `default` for `nil`. */
    function GetOr(default: T): T {
      match this
      case Some(v) => v
      case None => default
    }
  }

  /** The bytes of `cs`, chunk after chunk, in order. */
  function Flatten(cs: seq<seq<byte>>): seq<byte> {
    if |cs| == 0 then [] else cs[0] + Flatten(cs[1..])
  }

  /** The chunks `sent`, concatenated, are exactly `data[from..to]`. */
  predicate Covers(sent: seq<seq<byte>>, data: seq<byte>, from: nat, to: nat) {
    from <= to <= |data| && Flatten(sent) == data[from..to]
  }

  /** Concatenation distributes over appending lists of chunks. */
  lemma {:induction false} FlattenConcat(a: seq<seq<byte>>, b: seq<seq<byte>>)
    ensures Flatten(a + b) == Flatten(a) + Flatten(b)
  {
    if |a| == 0 {
      assert a + b == b;
    } else {
      assert (a + b)[1..] == a[1..] + b;
      FlattenConcat(a[1..], b);
    }
  }

  /** Appending one chunk at the end appends its bytes at the end. */
  lemma FlattenSnoc(a: seq<seq<byte>>, c: seq<byte>)
    ensures Flatten(a + [c]) == Flatten(a) + c
  {
    FlattenConcat(a, [c]);
    assert Flatten([c]) == c + Flatten([]);
  }

  /** The concatenation of a non-empty list ends with its last chunk. */
  lemma {:induction false} FlattenLast(cs: seq<seq<byte>>)
    requires |cs| > 0
    ensures Flatten(cs) == Flatten(cs[..|cs| - 1]) + cs[|cs| - 1]
    decreases |cs|
  {
    if |cs| == 1 {
      assert cs[..0] == [];
      assert Flatten(cs) == cs[0] + Flatten(cs[1..]);
      assert cs[1..] == [];
    } else {
      var tail := cs[1..];
      FlattenLast(tail);
      assert tail[..|tail| - 1] == cs[..|cs| - 1][1..];
      assert tail[|tail| - 1] == cs[|cs| - 1];
    }
  }

  /** Two adjacent covered ranges join: chunks covering `data[i..j]` followed
      by chunks covering `data[j..k]` cover `data[i..k]`. */
  lemma CoversConcat(a: seq<seq<byte>>, b: seq<seq<byte>>, data: seq<byte>, i: nat, j: nat, k: nat)
    requires Covers(a, data, i, j) && Covers(b, data, j, k)
    ensures Covers(a + b, data, i, k)
  {
    FlattenConcat(a, b);
    assert data[i..k] == data[i..j] + data[j..k];
  }
}

=== FILE: receiver.dfy ===
/** The central side of BLEManager: `receivedData` and the notification
    callback `peripheral(_:didUpdateValueFor:error:)`, which appends each
    inbound chunk and hands the buffer on once it grows past a size threshold.

    The hand-off (`UIImage(data:)` into `receivedImage`) is modelled as
    appending the buffer to the `delivered` log. */
module Receiver {
  import opened Chunks

  /** BLEManager's `receivedData.count > 5000`: the size past which the buffer
      is taken to be a complete image. */
  const Threshold: nat := 5000

  /** `receivedData`, and every buffer handed on so far, oldest first. */
  datatype ReceiverState = ReceiverState(buffer: seq<byte>, delivered: seq<seq<byte>>)

  /** The state when the central starts: empty buffer, nothing delivered. */
  const Start := ReceiverState([], [])

  /** Everything that has arrived, in order: the delivered payloads followed
      by the bytes still buffered. */
  function Stream(s: ReceiverState): seq<byte> {
    Flatten(s.delivered) + s.buffer
  }

  /** One notification carrying `chunk`: append it, and if the buffer is now
      longer than `threshold`, hand the whole buffer on and empty it. */
  function Append(s: ReceiverState, chunk: seq<byte>, threshold: nat): (r: ReceiverState)
    // nothing is lost, duplicated or reordered
    ensures Stream(r) == Stream(s) + chunk
    // the buffer never stays above the threshold
    ensures |r.buffer| <= threshold
    // earlier hand-offs are kept as they were
    ensures |s.delivered| <= |r.delivered| <= |s.delivered| + 1
    ensures r.delivered[..|s.delivered|] == s.delivered
    // a hand-off happens exactly when the grown buffer passes the threshold,
    // and then it carries the whole grown buffer and leaves it empty
    ensures |r.delivered| == |s.delivered| + 1 <==> |s.buffer| + |chunk| > threshold
    ensures |r.delivered| == |s.delivered| + 1 ==>
      r.delivered[|s.delivered|] == s.buffer + chunk && r.buffer == []
  {
    var grown := s.buffer + chunk;
    if |grown| > threshold then
      FlattenSnoc(s.delivered, grown);
      assert (s.delivered + [grown])[..|s.delivered|] == s.delivered;
      ReceiverState([], s.delivered + [grown])
    else
      assert s.delivered[..|s.delivered|] == s.delivered;
      ReceiverState(grown, s.delivered)
  }

  /** `peripheral(_:didUpdateValueFor:error:)`: a notification whose value
      is nil leaves everything as it was; a present value is appended, and the
      grown buffer is handed on exactly when it passes the threshold. */
  function OnValueUpdate(s: ReceiverState, value: Option<seq<byte>>, threshold: nat): (r: ReceiverState)
    ensures Stream(r) == Stream(s) + value.GetOr([])
    ensures value.None? ==> r == s
    ensures |s.buffer| <= threshold ==> |r.buffer| <= threshold
    ensures value.Some? ==>
      |r.buffer| <= threshold && |s.delivered| <= |r.delivered| && r.delivered[..|s.delivered|] == s.delivered
    ensures value.Some? ==>
      (|r.delivered| == |s.delivered| + 1 <==> |s.buffer| + |value.value| > threshold)
    ensures value.Some? && |s.buffer| + |value.value| > threshold ==>
      r == ReceiverState([], s.delivered + [s.buffer + value.value])
    ensures value.Some? && |s.buffer| + |value.value| <= threshold ==>
      r == ReceiverState(s.buffer + value.value, s.delivered)
  {
    match value
    case None => s
    case Some(chunk) =>
      var r := Append(s, chunk, threshold);
      if |s.buffer| + |chunk| <= threshold then
        AppendBelowThreshold(s, chunk, threshold);
        r
      else
        assert r.delivered == r.delivered[..|s.delivered|] + [r.delivered[|s.delivered|]];
        r
  }

  /** The values that are present in `values`, in order: what actually reaches
      `receivedData` from a run of notifications. */
  function Present(values: seq<Option<seq<byte>>>): seq<seq<byte>>
    decreases |values|
  {
    if |values| == 0 then []
    else
      var last := values[|values| - 1];
      Present(values[..|values| - 1]) + (if last.Some? then [last.value] else [])
  }

  /** A run of notification callbacks, in arrival order. */
  function Notify(s: ReceiverState, values: seq<Option<seq<byte>>>, threshold: nat): ReceiverState
    decreases |values|
  {
    if |values| == 0 then s
    else OnValueUpdate(Notify(s, values[..|values| - 1], threshold), values[|values| - 1], threshold)
  }

  /** Notifications without a value are invisible: a run of callbacks ends
      where `Receive` over just the present values ends. */
  lemma {:induction false} NotifyIsReceive(s: ReceiverState, values: seq<Option<seq<byte>>>, threshold: nat)
    ensures Notify(s, values, threshold) == Receive(s, Present(values), threshold)
    decreases |values|
  {
    if |values| > 0 {
      var init := values[..|values| - 1];
      var last := values[|values| - 1];
      NotifyIsReceive(s, init, threshold);
      if last.Some? {
        var cs := Present(init) + [last.value];
        assert cs[..|cs| - 1] == Present(init);
      } else {
        assert Present(values) == Present(init) + [];
        assert Present(init) + [] == Present(init);
        assert Notify(s, values, threshold) == Notify(s, init, threshold);
      }
    }
  }

  /** A run of notifications carrying `chunks`, in arrival order. */
  function Receive(s: ReceiverState, chunks: seq<seq<byte>>, threshold: nat): (r: ReceiverState)
    decreases |chunks|
    // the delivered payloads followed by the buffer are everything received
    ensures Stream(r) == Stream(s) + Flatten(chunks)
    // earlier hand-offs are kept
    ensures |s.delivered| <= |r.delivered| && r.delivered[..|s.delivered|] == s.delivered
    ensures |s.buffer| <= threshold || |chunks| > 0 ==> |r.buffer| <= threshold
  {
    if |chunks| == 0 then
      assert s.delivered[..|s.delivered|] == s.delivered;
      s
    else
      var init := chunks[..|chunks| - 1];
      var last := chunks[|chunks| - 1];
      FlattenLast(chunks);
      var mid := Receive(s, init, threshold);
      var r := Append(mid, last, threshold);
      assert r.delivered[..|s.delivered|] == mid.delivered[..|mid.delivered|][..|s.delivered|];
      r
  }

  /** While the buffer stays within the threshold nothing is handed on: the
      chunks simply pile up in the buffer. */
  lemma {:induction false} ReceiveBelowThreshold(s: ReceiverState, chunks: seq<seq<byte>>, threshold: nat)
    requires |s.buffer| + |Flatten(chunks)| <= threshold
    ensures Receive(s, chunks, threshold) == ReceiverState(s.buffer + Flatten(chunks), s.delivered)
    decreases |chunks|
  {
    if |chunks| == 0 {
      assert s.buffer + [] == s.buffer;
    } else {
      var init := chunks[..|chunks| - 1];
      var last := chunks[|chunks| - 1];
      var flat := Flatten(init);
      FlattenLast(chunks);
      assert |s.buffer| + |flat| <= threshold;
      ReceiveBelowThreshold(s, init, threshold);
      var mid := ReceiverState(s.buffer + flat, s.delivered);
      assert Receive(s, chunks, threshold) == Append(mid, last, threshold);
      AppendBelowThreshold(mid, last, threshold);
      assert mid.buffer + last == s.buffer + Flatten(chunks);
    }
  }

  /** One notification that keeps the buffer within the threshold just grows it. */
  lemma AppendBelowThreshold(s: ReceiverState, chunk: seq<byte>, threshold: nat)
    requires |s.buffer| + |chunk| <= threshold
    ensures Append(s, chunk, threshold) == ReceiverState(s.buffer + chunk, s.delivered)
  {
  }

  /** Chunks totalling `threshold + 1` bytes, fed to an empty buffer, cause
      exactly one hand-off carrying all of those bytes, and leave the buffer
      empty. */
  lemma {:induction false} ThresholdTriggersOneDelivery(s: ReceiverState, chunks: seq<seq<byte>>, threshold: nat)
    requires s.buffer == []
    requires |Flatten(chunks)| == threshold + 1
    ensures Receive(s, chunks, threshold) == ReceiverState([], s.delivered + [Flatten(chunks)])
    decreases |chunks|
  {
    var init := chunks[..|chunks| - 1];
    var last := chunks[|chunks| - 1];
    FlattenLast(chunks);
    if |last| == 0 {
      assert Flatten(chunks) == Flatten(init);
      ThresholdTriggersOneDelivery(s, init, threshold);
    } else {
      ReceiveBelowThreshold(s, init, threshold);
      assert [] + Flatten(init) + last == Flatten(chunks);
    }
  }

  /** Every payload in `ps` has a length between `lo` and `hi`. */
  predicate SizesWithin(ps: seq<seq<byte>>, lo: nat, hi: nat) {
    forall j :: 0 <= j < |ps| ==> lo <= |ps[j]| <= hi
  }

  /** Every payload the receiver hands on is longer than the threshold and
      at most one chunk longer than it. A transfer longer than
      `threshold + maxLen` can therefore never reach the consumer in one
      piece: the size heuristic cuts it. */
  lemma {:induction false} DeliveredSizes(s: ReceiverState, chunks: seq<seq<byte>>, threshold: nat, maxLen: nat)
    requires |s.buffer| <= threshold
    requires forall i :: 0 <= i < |chunks| ==> |chunks[i]| <= maxLen
    ensures SizesWithin(Receive(s, chunks, threshold).delivered[|s.delivered|..], threshold + 1, threshold + maxLen)
    decreases |chunks|
  {
    var r := Receive(s, chunks, threshold);
    if |chunks| == 0 {
      assert r.delivered[|s.delivered|..] == [];
    } else {
      var init := chunks[..|chunks| - 1];
      var last := chunks[|chunks| - 1];
      assert forall i :: 0 <= i < |init| ==> init[i] == chunks[i];
      DeliveredSizes(s, init, threshold, maxLen);
      var mid := Receive(s, init, threshold);
      assert r == Append(mid, last, threshold);
      var k := |s.delivered|;
      forall j | 0 <= j < |r.delivered[k..]|
        ensures threshold + 1 <= |r.delivered[k..][j]| <= threshold + maxLen
      {
        if k + j < |mid.delivered| {
          assert r.delivered[k + j] == r.delivered[..|mid.delivered|][k + j];
          assert mid.delivered[k..][j] == mid.delivered[k + j];
        } else {
          assert r.delivered[k + j] == mid.buffer + last;
        }
      }
    }
  }
}

=== FILE: sender.dfy ===
/** The peripheral side of BLEManager: the send context (`dataToSend`,
    `sendIndex`), the recursive drain `sendNextChunk`, and the delegate
    callbacks that load a payload or resume the drain.

    The transport is an oracle: the answers that `updateValue` gives, one per
    offered chunk, in order. `true` means the chunk was queued, `false` means
    the transmit queue is full and the drain waits for the ready callback. */
module Sender {
  import opened Chunks

  /** Bytes per notification in BLEManager (`sendIndex + 20` in `sendNextChunk`). */
  const MaxChunk: nat := 20

  /** `dataToSend` (nil until an image has been loaded) and `sendIndex`. */
  datatype SenderState = SenderState(payload: Option<seq<byte>>, index: nat) {

    /** The cursor never passes the end of the payload, and it is still at 0
        while nothing has been loaded. */
    predicate Valid() {
      match payload
      case None => index == 0
      case Some(data) => index <= |data|
    }

    /** Nothing is left to offer: no payload, or the cursor is at its end. */
    predicate Done() {
      payload.None? || index >= |payload.value|
    }

    /** Bytes of the payload not yet accepted by the transport. */
    function Remaining(): nat {
      if payload.Some? && index <= |payload.value| then |payload.value| - index else 0
    }
  }

  /** The state before any payload has been loaded. */
  const Idle := SenderState(None, 0)

  /** Outcome of one drain: the new state, the chunks the transport accepted
      (in order), and the transport answers not consumed. */
  datatype Drain = Drain(state: SenderState, sent: seq<seq<byte>>, rest: seq<bool>)

  function Min(a: int, b: int): int {
    if a <= b then a else b
  }

  /** The chunk `sendNextChunk` offers next: nothing when idle or done,
      otherwise the slice of at most `size` bytes that starts at the cursor. */
  function NextChunk(s: SenderState, size: nat): (r: Option<seq<byte>>)
    requires size > 0
    ensures r.None? <==> s.Done()
    ensures r.Some? ==>
      && s.index + |r.value| <= |s.payload.value|
      && r.value == s.payload.value[s.index .. s.index + |r.value|]
      && 1 <= |r.value| <= size
      && (|r.value| == size || s.index + |r.value| == |s.payload.value|)
  {
    match s.payload
    case None => None
    case Some(data) =>
      if s.index >= |data| then None
      else Some(data[s.index .. Min(s.index + size, |data|)])
  }

  /** `sendNextChunk`: offer chunks back to back while the transport accepts
      them; stop at the end of the payload, at the first busy answer, or when
      the oracle has no further answer. */
  function SendNextChunk(s: SenderState, answers: seq<bool>, size: nat): (r: Drain)
    requires s.Valid() && size > 0
    decreases s.Remaining()
    // the payload is never touched and the cursor only moves forward, within bounds
    ensures r.state.Valid() && r.state.payload == s.payload && s.index <= r.state.index
    // resuming when idle or finished changes nothing and asks the transport nothing
    ensures s.Done() ==> r == Drain(s, [], answers)
  {
    match NextChunk(s, size)
    case None => Drain(s, [], answers)
    case Some(chunk) =>
      if |answers| == 0 then Drain(s, [], [])
      else if answers[0] then
        var r := SendNextChunk(s.(index := s.index + |chunk|), answers[1..], size);
        Drain(r.state, [chunk] + r.sent, r.rest)
      else Drain(s, [], answers[1..])
  }

  /** The chunks one drain gets accepted, concatenated in order, are exactly
      the payload bytes the cursor passed over: nothing skipped, nothing
      repeated. */
  lemma {:induction false} DrainCovers(s: SenderState, answers: seq<bool>, size: nat)
    requires s.Valid() && size > 0 && s.payload.Some?
    ensures Covers(SendNextChunk(s, answers, size).sent, s.payload.value, s.index, SendNextChunk(s, answers, size).state.index)
    decreases s.Remaining()
  {
    var data := s.payload.value;
    var r := SendNextChunk(s, answers, size);
    if s.Done() || |answers| == 0 || !answers[0] {
      assert r.sent == [] && r.state == s;
      assert data[s.index .. s.index] == [];
    } else {
      var chunk := NextChunk(s, size).value;
      var next := s.(index := s.index + |chunk|);
      DrainAcceptStep(s, answers, size);
      DrainCovers(next, answers[1..], size);
      var r' := SendNextChunk(next, answers[1..], size);
      assert r.sent[1..] == r'.sent;
      assert data[s.index .. r.state.index] == chunk + data[next.index .. r.state.index];
    }
  }

  /** Delegate callbacks of the peripheral role, one atomic step each. */
  datatype SenderEvent =
    | StateUpdate(poweredOn: bool, image: Option<seq<byte>>)  // peripheralManagerDidUpdateState; `image` is loadImage()'s result
    | Subscribed                                              // a central subscribed to the characteristic
    | ReadyToUpdate                                           // peripheralManagerIsReady(toUpdateSubscribers:)

  /** `peripheralManagerDidUpdateState`: when the radio is on and an image
      could be loaded, it becomes the payload and the cursor returns to 0;
      any payload still in flight is dropped, not queued. */
  function OnStateUpdate(s: SenderState, poweredOn: bool, image: Option<seq<byte>>): (r: SenderState)
    requires s.Valid()
    ensures r.Valid()
    ensures poweredOn && image.Some? ==> r.payload == image && r.index == 0 && r.Remaining() == |image.value|
    ensures !(poweredOn && image.Some?) ==> r == s
  {
    if poweredOn then
      match image
      case Some(data) => SenderState(Some(data), 0)
      case None => s
    else s
  }

  /** True when `e` replaces the payload. */
  predicate Loads(e: SenderEvent) {
    e.StateUpdate? && e.poweredOn && e.image.Some?
  }

  /** One callback: loading consumes no transport answer; subscription and
      readiness both run the drain. */
  function Handle(s: SenderState, e: SenderEvent, answers: seq<bool>, size: nat): (r: Drain)
    requires s.Valid() && size > 0
    ensures r.state.Valid()
    ensures Loads(e) ==> r == Drain(SenderState(e.image, 0), [], answers)
    ensures e.StateUpdate? && !Loads(e) ==> r == Drain(s, [], answers)
    ensures !e.StateUpdate? ==> r.state.payload == s.payload && s.index <= r.state.index
    ensures !Loads(e) && s.payload.Some? ==> Covers(r.sent, s.payload.value, s.index, r.state.index)
    // a resumed drain takes answers as `sendNextChunk` does: one `true` per
    // accepted chunk, and a busy answer ends the callback
    ensures !e.StateUpdate? ==> UsesAnswers(answers, |r.sent|, r.rest, r.state.Done())
    // resuming when idle or finished asks the transport nothing
    ensures !e.StateUpdate? && s.Done() ==> r == Drain(s, [], answers)
  {
    DrainConsumesAnswers(s, answers, size);
    assert s.payload.Some? ==>
      (&& Covers(SendNextChunk(s, answers, size).sent, s.payload.value, s.index, SendNextChunk(s, answers, size).state.index)
       && s.payload.value[s.index .. s.index] == []) by {
      if s.payload.Some? {
        DrainCovers(s, answers, size);
      }
    }
    match e
    case StateUpdate(on, image) => Drain(OnStateUpdate(s, on, image), [], answers)
    case Subscribed | ReadyToUpdate => SendNextChunk(s, answers, size)
  }

  /** A run of callbacks, in order, sharing one stream of transport answers.
      `sent` lists every chunk the transport accepted during the run. */
  function Run(s: SenderState, events: seq<SenderEvent>, answers: seq<bool>, size: nat): (r: Drain)
    requires s.Valid() && size > 0
    decreases |events|
    ensures r.state.Valid()
  {
    if |events| == 0 then Drain(s, [], answers)
    else
      var h := Handle(s, events[0], answers, size);
      var t := Run(h.state, events[1..], h.rest, size);
      Drain(t.state, h.sent + t.sent, t.rest)
  }

  // ---------------------------------------------------------------------
  // Properties of the drain

  /** An accepted chunk: the drain moves the cursor past it and goes on. */
  lemma DrainAcceptStep(s: SenderState, answers: seq<bool>, size: nat)
    requires s.Valid() && size > 0 && !s.Done() && |answers| > 0 && answers[0]
    ensures var chunk := NextChunk(s, size).value;
      var r' := SendNextChunk(s.(index := s.index + |chunk|), answers[1..], size);
      SendNextChunk(s, answers, size) == Drain(r'.state, [chunk] + r'.sent, r'.rest)
  {
  }

  /** Every chunk is non-empty and at most `size` bytes, and only the last one
      may be shorter than `size`, and then only when it finished the payload. */
  predicate WellShaped(chunks: seq<seq<byte>>, size: nat, finished: bool) {
    forall i :: 0 <= i < |chunks| ==>
      && 1 <= |chunks[i]| <= size
      && (|chunks[i]| == size || (i == |chunks| - 1 && finished))
  }

  /** Shape of the chunks one drain hands to the transport: each is non-empty
      and at most `size` bytes, and only the chunk that ends the payload may be
      shorter than `size`. */
  lemma {:induction false} DrainChunkShape(s: SenderState, answers: seq<bool>, size: nat)
    requires s.Valid() && size > 0
    ensures WellShaped(SendNextChunk(s, answers, size).sent, size, SendNextChunk(s, answers, size).state.Done())
    decreases s.Remaining()
  {
    var r := SendNextChunk(s, answers, size);
    match NextChunk(s, size)
    case None =>
    case Some(chunk) =>
      if |answers| > 0 && answers[0] {
        var next := s.(index := s.index + |chunk|);
        DrainChunkShape(next, answers[1..], size);
        var r' := SendNextChunk(next, answers[1..], size);
        assert r == Drain(r'.state, [chunk] + r'.sent, r'.rest);
        if |chunk| < size {
          assert next.Done();
          assert r'.sent == [];
        }
        assert forall i :: 1 <= i < |r.sent| ==> r.sent[i] == r'.sent[i - 1];
      }
  }

  /** The first `accepted` answers are all `true`, and `rest` is what
      follows them: directly when `finished`, and otherwise either nothing
      (the answers ran out) or everything after one busy answer. */
  predicate UsesAnswers(answers: seq<bool>, accepted: nat, rest: seq<bool>, finished: bool) {
    && accepted <= |answers|
    && (forall i :: 0 <= i < accepted ==> answers[i])
    && (finished ==> rest == answers[accepted..])
    && (!finished ==>
         || (accepted == |answers| && rest == [])
         || (accepted < |answers| && !answers[accepted] && rest == answers[accepted + 1..]))
  }

  /** How one drain uses the transport's answers: one `true` per accepted
      chunk, then it stops because the payload is finished (no answer
      consumed), because the transport was busy (that one `false` consumed),
      or because the oracle has no further answer. */
  lemma {:induction false} DrainConsumesAnswers(s: SenderState, answers: seq<bool>, size: nat)
    requires s.Valid() && size > 0
    ensures UsesAnswers(answers, |SendNextChunk(s, answers, size).sent|,
                        SendNextChunk(s, answers, size).rest, SendNextChunk(s, answers, size).state.Done())
    decreases s.Remaining()
  {
    var r := SendNextChunk(s, answers, size);
    match NextChunk(s, size)
    case None =>
      assert answers[0..] == answers;
    case Some(chunk) =>
      if |answers| == 0 {
      } else if !answers[0] {
        assert r == Drain(s, [], answers[1..]);
      } else {
        var next := s.(index := s.index + |chunk|);
        DrainConsumesAnswers(next, answers[1..], size);
        var r' := SendNextChunk(next, answers[1..], size);
        var k := |r'.sent|;
        assert r == Drain(r'.state, [chunk] + r'.sent, r'.rest);
        assert UsesAnswers(answers[1..], k, r.rest, r.state.Done());
        assert forall i :: 1 <= i < k + 1 ==> answers[i] == answers[1..][i - 1];
        assert answers[1..][k..] == answers[k + 1..];
        if k < |answers| - 1 {
          assert answers[1..][k] == answers[k + 1];
          assert answers[1..][k + 1..] == answers[k + 2..];
        }
      }
  }

  /** Number of chunks needed for `n` bytes when each carries at most `size`. */
  function ChunkCount(n: nat, size: nat): nat
    requires size > 0
    decreases n
  {
    if n == 0 then 0 else if n <= size then 1 else 1 + ChunkCount(n - size, size)
  }

  /** ChunkCount is ceil(n / size): the least k with k * size >= n. */
  lemma {:induction false} ChunkCountIsCeiling(n: nat, size: nat)
    requires size > 0
    ensures ChunkCount(n, size) * size >= n
    ensures ChunkCount(n, size) > 0 ==> (ChunkCount(n, size) - 1) * size < n
    decreases n
  {
    if n > size {
      ChunkCountIsCeiling(n - size, size);
      var k := ChunkCount(n - size, size);
      assert (1 + k) * size == size + k * size;
      assert k > 0;
      assert k * size == size + (k - 1) * size;
    }
  }

  /** The drain `r` left the cursor at `len` after exactly `k` accepted
      chunks, one answer each. */
  predicate Emptied(r: Drain, len: nat, k: nat, answers: seq<bool>) {
    && r.state.index == len
    && |r.sent| == k
    && k <= |answers|
    && r.rest == answers[k..]
  }

  /** With a transport that accepts every chunk, one drain empties the
      payload in exactly ChunkCount(remaining) chunks and consumes exactly
      that many answers. */
  lemma {:induction false} DrainAllAccepted(s: SenderState, answers: seq<bool>, size: nat)
    requires s.Valid() && size > 0 && s.payload.Some?
    requires forall i :: 0 <= i < |answers| ==> answers[i]
    requires |answers| >= ChunkCount(s.Remaining(), size)
    ensures Emptied(SendNextChunk(s, answers, size), |s.payload.value|, ChunkCount(s.Remaining(), size), answers)
    decreases s.Remaining()
  {
    var n := s.Remaining();
    if n == 0 {
      assert s.Done();
      assert answers[0..] == answers;
    } else {
      var chunk := NextChunk(s, size).value;
      var next := s.(index := s.index + |chunk|);
      DrainAcceptStep(s, answers, size);
      var r' := SendNextChunk(next, answers[1..], size);
      if n > size {
        var k := ChunkCount(n - size, size);
        assert ChunkCount(n, size) == 1 + k;
        assert |chunk| == size;
        assert next.Valid() && next.payload.Some? && next.Remaining() == n - size;
        assert |answers[1..]| >= k;
        assert forall i :: 0 <= i < |answers[1..]| ==> answers[1..][i];
        DrainAllAccepted(next, answers[1..], size);
        assert Emptied(r', |s.payload.value|, k, answers[1..]);
        assert answers[1..][k..] == answers[1 + k..];
        assert Emptied(Drain(r'.state, [chunk] + r'.sent, r'.rest), |s.payload.value|, 1 + k, answers);
      } else {
        assert next.Done();
        assert r' == Drain(next, [], answers[1..]);
      }
    }
  }

  /** Loading a payload and then seeing a subscription is one drain of the
      new payload from offset 0, whatever was in flight before. */
  lemma LoadThenSubscribe(s: SenderState, data: seq<byte>, answers: seq<bool>, size: nat)
    requires s.Valid() && size > 0
    ensures Run(s, [StateUpdate(true, Some(data)), Subscribed], answers, size)
         == SendNextChunk(SenderState(Some(data), 0), answers, size)
  {
    var loaded := SenderState(Some(data), 0);
    var d := SendNextChunk(loaded, answers, size);
    var events := [StateUpdate(true, Some(data)), Subscribed];
    assert events[1..] == [Subscribed];
    assert events[1..][1..] == [];
    assert Run(loaded, [Subscribed], answers, size) == Drain(d.state, d.sent + [], d.rest);
    assert d.sent + [] == d.sent;
    assert [] + d.sent == d.sent;
  }

  /** A fresh load followed by one drain on an always-accepting transport
      hands over the whole payload, and nothing else. */
  lemma LoadThenDrainSendsPayload(s: SenderState, data: seq<byte>, answers: seq<bool>, size: nat)
    requires s.Valid() && size > 0
    requires forall i :: 0 <= i < |answers| ==> answers[i]
    requires |answers| >= ChunkCount(|data|, size)
    ensures var r := Run(s, [StateUpdate(true, Some(data)), Subscribed], answers, size);
      && r.state == SenderState(Some(data), |data|)
      && Flatten(r.sent) == data
      && |r.sent| == ChunkCount(|data|, size)
  {
    var loaded := SenderState(Some(data), 0);
    DrainAllAccepted(loaded, answers, size);
    assert Emptied(SendNextChunk(loaded, answers, size), |data|, ChunkCount(|data|, size), answers);
    LoadThenSubscribe(s, data, answers, size);
    DrainCovers(loaded, answers, size);
    assert data[0..|data|] == data;
  }

  /** A subscription or a ready callback resumes the drain where the cursor
      stands: with a transport that accepts every chunk it sends the rest of
      the payload, in order, and leaves the cursor at its end. */
  lemma ResumeSendsRemainder(s: SenderState, e: SenderEvent, answers: seq<bool>, size: nat)
    requires s.Valid() && size > 0 && s.payload.Some? && !e.StateUpdate?
    requires forall i :: 0 <= i < |answers| ==> answers[i]
    requires |answers| >= ChunkCount(s.Remaining(), size)
    ensures var r := Run(s, [e], answers, size);
      && r.state == SenderState(s.payload, |s.payload.value|)
      && Flatten(r.sent) == s.payload.value[s.index..]
      && |r.sent| == ChunkCount(s.Remaining(), size)
  {
    DrainAllAccepted(s, answers, size);
    DrainCovers(s, answers, size);
    var d := SendNextChunk(s, answers, size);
    assert [e][1..] == [];
    assert Run(s, [e], answers, size) == Drain(d.state, d.sent + [], d.rest);
    assert d.sent + [] == d.sent;
  }

  /** Every chunk in `chunks` carries at most `size` bytes. */
  predicate ChunksAtMost(chunks: seq<seq<byte>>, size: nat) {
    forall i :: 0 <= i < |chunks| ==> |chunks[i]| <= size
  }

  /** Over any callbacks, reloads included, and any transport answers, no
      chunk the transport accepts is longer than `size` bytes. */
  lemma {:induction false} RunChunksAtMost(s: SenderState, events: seq<SenderEvent>, answers: seq<bool>, size: nat)
    requires s.Valid() && size > 0
    ensures ChunksAtMost(Run(s, events, answers, size).sent, size)
    decreases |events|
  {
    if |events| > 0 {
      var h := Handle(s, events[0], answers, size);
      if !events[0].StateUpdate? {
        DrainChunkShape(s, answers, size);
      }
      assert ChunksAtMost(h.sent, size);
      RunChunksAtMost(h.state, events[1..], h.rest, size);
      var t := Run(h.state, events[1..], h.rest, size);
      assert Run(s, events, answers, size).sent == h.sent + t.sent;
    }
  }

  /** Backpressure: while every answer is busy, each callback that runs the
      drain makes exactly one attempt (if a chunk is left and an answer
      remains), the transport accepts nothing, and the state does not move. */
  lemma {:induction false} BusyTransportSendsNothing(s: SenderState, events: seq<SenderEvent>, answers: seq<bool>, size: nat)
    requires s.Valid() && size > 0
    requires forall i :: 0 <= i < |events| ==> !events[i].StateUpdate?
    requires forall i :: 0 <= i < |answers| ==> !answers[i]
    ensures var r := Run(s, events, answers, size);
      && r.state == s
      && r.sent == []
      && (s.Done() ==> r.rest == answers)
      && (!s.Done() ==> r.rest == answers[Min(|events|, |answers|)..])
    decreases |events|
  {
    if |events| > 0 {
      var h := Handle(s, events[0], answers, size);
      DrainConsumesAnswers(s, answers, size);
      assert h.sent == [];
      assert h.state == s;
      assert !s.Done() ==> h.rest == answers[Min(1, |answers|)..];
      BusyTransportSendsNothing(s, events[1..], h.rest, size);
      var t := Run(s, events[1..], h.rest, size);
      assert [] + t.sent == t.sent;
      if !s.Done() {
        assert h.rest[Min(|events| - 1, |h.rest|)..] == answers[Min(|events|, |answers|)..];
      }
    }
  }

  /** A run that loads nothing sends exactly the bytes between the cursor's
      start and end positions: no byte is skipped or sent twice, whatever the
      transport answers. */
  lemma {:induction false} RunIsContiguous(s: SenderState, events: seq<SenderEvent>, answers: seq<bool>, size: nat)
    requires s.Valid() && size > 0 && s.payload.Some?
    requires forall i :: 0 <= i < |events| ==> !Loads(events[i])
    ensures Run(s, events, answers, size).state.payload == s.payload
    ensures Covers(Run(s, events, answers, size).sent, s.payload.value, s.index, Run(s, events, answers, size).state.index)
    decreases |events|
  {
    var data := s.payload.value;
    var r := Run(s, events, answers, size);
    if |events| == 0 {
      assert r == Drain(s, [], answers);
      assert data[s.index .. s.index] == [];
    } else {
      var h := Handle(s, events[0], answers, size);
      RunIsContiguous(h.state, events[1..], h.rest, size);
      var t := Run(h.state, events[1..], h.rest, size);
      assert r == Drain(t.state, h.sent + t.sent, t.rest);
      CoversConcat(h.sent, t.sent, data, s.index, h.state.index, t.state.index);
    }
  }

  /** Loading a new payload mid-transfer abandons the old one: the cursor
      restarts at 0 and everything the transport accepts afterwards is a
      prefix of the new payload. */
  lemma ReloadSendsOnlyNewPayload(s: SenderState, data: seq<byte>, events: seq<SenderEvent>, answers: seq<bool>, size: nat)
    requires s.Valid() && size > 0
    requires forall i :: 0 <= i < |events| ==> !Loads(events[i])
    ensures var r := Run(s, [StateUpdate(true, Some(data))] + events, answers, size);
      && r.state.payload == Some(data)
      && Flatten(r.sent) == data[.. r.state.index]
  {
    var all := [StateUpdate(true, Some(data))] + events;
    assert all[0] == StateUpdate(true, Some(data));
    assert all[1..] == events;
    var loaded := SenderState(Some(data), 0);
    RunIsContiguous(loaded, events, answers, size);
    var t := Run(loaded, events, answers, size);
    assert [] + t.sent == t.sent;
  }
}

=== FILE: transfer.dfy ===
/** The two roles put end to end: the chunks the peripheral's drain gets
    accepted arrive, in the same order, as notifications at the central. */
module Transfer {
  import opened Chunks
  import opened Sender
  import opened Receiver

  /** The chunks the peripheral sends after loading `data` and seeing one
      subscription. */
  function SentChunks(data: seq<byte>, answers: seq<bool>, size: nat): seq<seq<byte>>
    requires size > 0
  {
    Run(Idle, [StateUpdate(true, Some(data)), Subscribed], answers, size).sent
  }

  /** Best case of the size heuristic: when the threshold is one less than the
      payload length, a fully accepted transfer of a non-empty payload reaches
      the consumer as exactly that payload, and the buffer is left empty. */
  lemma RoundTrip(data: seq<byte>, answers: seq<bool>, size: nat)
    requires size > 0 && |data| > 0
    requires forall i :: 0 <= i < |answers| ==> answers[i]
    requires |answers| >= ChunkCount(|data|, size)
    ensures Receive(Start, SentChunks(data, answers, size), |data| - 1) == ReceiverState([], [data])
  {
    LoadThenDrainSendsPayload(Idle, data, answers, size);
    ThresholdTriggersOneDelivery(Start, SentChunks(data, answers, size), |data| - 1);
  }

  /** With the threshold equal to the payload length the strict comparison
      never fires: the whole payload sits in the buffer and nothing is handed
      on. */
  lemma ThresholdEqualToLengthDeliversNothing(data: seq<byte>, answers: seq<bool>, size: nat)
    requires size > 0
    requires forall i :: 0 <= i < |answers| ==> answers[i]
    requires |answers| >= ChunkCount(|data|, size)
    ensures Receive(Start, SentChunks(data, answers, size), |data|) == ReceiverState(data, [])
  {
    LoadThenDrainSendsPayload(Idle, data, answers, size);
    ReceiveBelowThreshold(Start, SentChunks(data, answers, size), |data|);
  }

  /** The sender half of the 45-byte scenario: three chunks of 20, 20 and 5
      bytes, the first two carrying the first 40 bytes and all three the
      whole payload. */
  lemma FortyFiveBytesSent(data: seq<byte>, answers: seq<bool>)
    requires |data| == 45
    requires forall i :: 0 <= i < |answers| ==> answers[i]
    requires |answers| >= 3
    ensures var sent := SentChunks(data, answers, MaxChunk);
      && |sent| == 3
      && |sent[0]| == 20 && |sent[1]| == 20 && |sent[2]| == 5
      && Flatten(sent[..2]) == data[..40]
      && Flatten(sent) == data
  {
    assert ChunkCount(45, 20) == 3 by {
      assert ChunkCount(5, 20) == 1;
      assert ChunkCount(25, 20) == 2;
    }
    LoadThenDrainSendsPayload(Idle, data, answers, MaxChunk);
    var loaded := SenderState(Some(data), 0);
    DrainChunkShape(loaded, answers, MaxChunk);
    LoadThenSubscribe(Idle, data, answers, MaxChunk);
    var sent := SentChunks(data, answers, MaxChunk);
    assert |sent[0]| == 20 && |sent[1]| == 20;
    assert Flatten(sent) == sent[0] + sent[1] + sent[2] by {
      FlattenConcat([sent[0], sent[1]], [sent[2]]);
      FlattenSnoc([sent[0]], sent[1]);
      FlattenSnoc([], sent[0]);
      assert sent == [sent[0], sent[1]] + [sent[2]];
      assert [sent[0], sent[1]] == [sent[0]] + [sent[1]];
      assert [sent[0]] == [] + [sent[0]];
    }
    assert Flatten(sent[..2]) == sent[0] + sent[1] by {
      FlattenSnoc([sent[0]], sent[1]);
      FlattenSnoc([], sent[0]);
      assert sent[..2] == [sent[0]] + [sent[1]];
      assert [sent[0]] == [] + [sent[0]];
    }
  }

  /** A 45-byte payload in 20-byte chunks goes out as chunks of 20, 20 and 5
      bytes; with a threshold of 44 the receiver holds the first 40 bytes
      after two notifications and hands on all 45, in order, after the third. */
  lemma FortyFiveBytes(data: seq<byte>, answers: seq<bool>)
    requires |data| == 45
    requires forall i :: 0 <= i < |answers| ==> answers[i]
    requires |answers| >= 3
    ensures var sent := SentChunks(data, answers, MaxChunk);
      && |sent| == 3
      && |sent[0]| == 20 && |sent[1]| == 20 && |sent[2]| == 5
      && Receive(Start, sent[..2], 44) == ReceiverState(data[..40], [])
      && Receive(Start, sent, 44) == ReceiverState([], [data])
  {
    FortyFiveBytesSent(data, answers);
    var sent := SentChunks(data, answers, MaxChunk);
    ReceiveBelowThreshold(Start, sent[..2], 44);
    ThresholdTriggersOneDelivery(Start, sent, 44);
  }

  /** With BLEManager's constants (20-byte chunks, 5000-byte threshold), a
      payload longer than 5020 bytes never reaches the consumer whole: after
      the load, whatever callbacks follow (subscriptions, ready callbacks
      resuming after backpressure, even reloads) and whatever the transport
      answers, every hand-off is cut at the first chunk boundary past 5000
      bytes. */
  lemma LargePayloadIsCut(s: SenderState, data: seq<byte>, events: seq<SenderEvent>, answers: seq<bool>)
    requires s.Valid()
    requires |data| > Threshold + MaxChunk
    ensures var sent := Run(s, [StateUpdate(true, Some(data))] + events, answers, MaxChunk).sent;
      var r := Receive(Start, sent, Threshold);
      forall j :: 0 <= j < |r.delivered| ==> r.delivered[j] != data
  {
    var sent := Run(s, [StateUpdate(true, Some(data))] + events, answers, MaxChunk).sent;
    RunChunksAtMost(s, [StateUpdate(true, Some(data))] + events, answers, MaxChunk);
    DeliveredSizes(Start, sent, Threshold, MaxChunk);
    var r := Receive(Start, sent, Threshold);
    assert r.delivered[0..] == r.delivered;
  }
}
